=== FILE: README.md ===
# Upload, preprocessing and detection services — a Dafny model

The system is two small HTTP services. The front service takes an uploaded
photograph on `/upload`, saves it under `temp/`, resizes it to 640 x 480 and
forwards it to the detection service. The detection service runs a YOLO
model on `/detect`, turns the boxes into detection records, draws them on a
copy of the image, and answers with the records and the Base64 text of the
annotated JPEG. The front service then relays that answer.

This project models the decision logic of both services as pure functions
over immutable values, and proves what that logic promises:

- `App` (UI/app.py): the extension whitelist `allowed_file`; the
  missing-field check, file-name default and temporary path naming of
  `upload_image`; and the rule that relays the detection service's reply.
- `Preprocess` (UI/preprocess.py): `preprocess_image` at the level of image
  shape. This covers the `resize` guard, the fixed order resize → grayscale →
  normalize, the size and channel counts, the clip to [0, 255], and the
  write's refusals: of an empty image, of a path whose extension has no
  image writer, and of a channel count other than 1, 3 or 4.
- `Inference` (AI/inference.py): `detect`. This covers the missing-field check,
  the loop from model boxes to records, the rounding, the corners and label
  placement, what is drawn for each detection, and the two-key answer.
- Helpers: `Decimals` models Python's `round` as round-half-even over the
  exact value of the float, with fixed-point results, and `int()` as
  truncation toward zero. CPython's `round(x, n)` is correctly rounded on
  that exact value, so the two agree.
  `NumText` models digit strings and the `"{:.2f}"` text, with a parser as
  its inverse. `Base64` is the encoder of section 4 of RFC 4648, with a
  decoder as its inverse. `Imaging` defines the abstract image. `Http`
  defines requests, JSON, responses and exceptions. `Wrappers` defines
  `Option` and `Result`.

The code's collaborators are parameters, written as function-typed fields
of an environment value. They are PIL decoding, `model.predict`,
`cv2.imencode`, whether `img_file.save` can create the saved file,
`cv2.imread`, the OpenCV pixel kernels, OpenCV's choice of image writer by
file extension, and `requests.post`.
"Nothing is called" therefore has a precise meaning: the answer is the same
constant for every environment. An exception that escapes a handler is the
response `Uncaught(e)`. Flask answers such a request with a generic 500
page.

Behaviours of the code worth knowing, all of which the model follows:

- The code never consults `allowed_file`, so an upload with any extension is
  processed.
- A request with no file field is refused. A file of the wrong type is not
  refused by name: it is saved, and then `cv2.imread` cannot read it, or
  `cv2.imwrite` finds no writer for its extension (an upload named `blob`
  is written to `temp/preprocessed_blob`). Either way `/upload` raises and
  answers 500 before anything is sent (`App.UnreadableUploadRaises`,
  `App.UnwritableUploadRaises`).
- An upload name with a directory part, such as `x/y.jpg`, is saved as
  `temp/x/y.jpg`. The handler creates only `temp`, so the save raises
  FileNotFoundError and `/upload` answers 500 before anything is read,
  preprocessed or sent (`App.UnsavableUploadRaises`).
- `preprocess_image` creates the directory of its output path first. For
  a bare file name such as `out.jpg` that directory is empty and
  `os.makedirs('')` raises FileNotFoundError
  (`Preprocess.PreprocessImage`). `/upload` always passes a path under
  `temp/`, so it is not affected.
- If `requests.post` raises, `/upload` answers 500.
- An undecodable image makes PIL raise inside `detect`. The service then
  answers 500, not 4xx.
- Temporary files are never deleted.
- The call to the detection service has no timeout.
- Detection boxes are not clamped to the image. No containment property is
  claimed.
- `cv2.imread` with its default flags gives either nothing or a non-empty
  3-channel image, in every call. So the refusals that depend on the image
  read (a gray conversion of an empty image or of one without 3 or 4
  channels, and a write of an empty image or of one without 1, 3 or 4
  channels) cannot happen in the program. The model takes `read` to be any
  image, so it states these refusals as OpenCV makes them
  (`Preprocess.Grayscale`, `Preprocess.Store`), and the results about
  `/upload` assume a read with 1, 3 or 4 channels where they need it
  (`App.UploadSendsResizedImage`).
- The intensity step (`normalize`) changes nothing: for every 8-bit value
  v, float32 arithmetic gives back exactly v from `v / 255.0 * 255`, so
  the model computes it exactly and proves it the identity on valid
  images.
- The annotated image has the size of the image the detection service
  received (`Inference.Annotate`). For `/upload` that image is the 640 x 480
  resized copy (`App.UploadSendsResizedImage`), not the original upload.

## Model

| member | source | states |
|---|---|---|
| Decimals.RoundHalfEven | AI/inference.py:50-51 | the result is an integer within 1/2 of the value, and it is even when the value lies exactly halfway: Python's rounding rule |
| Decimals.RoundHalfEvenUnique | AI/inference.py:50-51 | any integer within 1/2 of the value, even on a tie, is the rounding result, so the rule has exactly one answer |
| Decimals.RoundHalfEvenMonotone | AI/inference.py:50-51 | rounding never reverses the order of two values |
| Decimals.RoundTo | AI/inference.py:50-51 | `round(x, n)` gives n decimal places, lies within half a unit of 10^-n of x, and on a tie is the even multiple |
| Decimals.RoundsToUnique | AI/inference.py:50-51 | any n-place decimal within half a unit of x, even on a tie, is `round(x, n)`: the rounding has one answer |
| Decimals.RoundToTiesToEven | AI/inference.py:50-51 | when x lies exactly halfway between two multiples of 10^-n, `round(x, n)` is the even one: `round(0.125, 2)` is 0.12 |
| Decimals.HundredthsOfCoordinate | AI/inference.py:51 | a non-negative coordinate rounded to hundredths lies between 100 times its integer part and the next multiple of 100, and reaches that multiple exactly when the coordinate is within 0.005 below the next integer |
| Decimals.Truncate | AI/inference.py:57 | `int()` of a rounded value keeps its sign and cuts its magnitude down to a whole number (truncation toward zero) |
| Decimals.WholePartUnique | AI/inference.py:57 | a decimal has one whole part: two integers that both have its sign and its magnitude cut down are equal |
| Decimals.TruncatedRoundingOfCoordinate | AI/inference.py:51-57 | the drawn pixel for a non-negative coordinate is its integer part or the next integer, and it is the next integer exactly when the coordinate lies within 0.005 below it, because truncation acts on the rounded value |
| Decimals.RoundingCarriesCoordinateUp | AI/inference.py:51-57 | witness: 2.999 is drawn at pixel 3, where truncating the raw value gives 2 |
| NumText.NatToString | AI/inference.py:61 | an integer is written as a non-empty digit string with no leading zero, and that string reads back as the same integer |
| NumText.Hundredths | AI/inference.py:61 | `.2f` rounds the magnitude of the confidence to the nearest hundredth |
| NumText.TwoPlacesTextLayout | AI/inference.py:61 | two-decimal text starts with a minus sign exactly for a negative value, then holds the integer part, a point and the two decimal digits |
| NumText.TwoPlacesTextRoundTrip | AI/inference.py:61 | text with two decimals reads back as the sign and hundredths it was written from |
| NumText.FormatTwoPlaces | AI/inference.py:61 | the `.2f` text of a confidence reads back as its sign and its value rounded to hundredths |
| Base64.Encode | AI/inference.py:71 | `b64encode` output is 4 * ceil(n / 3) characters for n bytes. Every character is from the standard alphabet, except `=` padding in the last two positions |
| Base64.DecodeEncode | AI/inference.py:71 | decoding the Base64 text gives back the exact JPEG bytes |
| Preprocess.ResizeTarget | UI/preprocess.py:17-18 | a resize happens exactly when `resize` is present with two elements, and they are read as (width, height) |
| Preprocess.Resize | UI/preprocess.py:19 | the result is exactly width x height with the channel count kept. It fails exactly for an empty source or a non-positive target side |
| Preprocess.Grayscale | UI/preprocess.py:22-23 | the result has one channel and the same width and height. Only a non-empty 3- or 4-channel input is accepted |
| Preprocess.Requantize | UI/preprocess.py:29 | clip then `astype('uint8')` always gives a value in [0, 255], and gives the integer part of any value already in range |
| Preprocess.Normalize | UI/preprocess.py:26-29 | the shape and sample count are kept, every sample is within [0, 255], and a valid 8-bit image comes back unchanged |
| Preprocess.ImageSteps | UI/preprocess.py:16-29 | the image steps fail exactly when OpenCV refuses one of them, and otherwise fix the size, channel count, sample range and step order as requested; normalize alone leaves a valid image unchanged |
| Preprocess.Store | UI/preprocess.py:31-36 | makedirs refuses an output path without a directory part; after it, the write refuses an empty image, then a path without a writer, then a channel count other than 1, 3 or 4, and otherwise writes the image at the path given |
| Preprocess.ProcessRead | UI/preprocess.py:16-36 | for an image that was read: it fails exactly when OpenCV refuses a requested image step, the output path has no directory part, or the write refuses the result, with the makedirs failure first and then the write's checks in their order. On success it delivers the output path and the image and steps as requested |
| Preprocess.PreprocessImage | UI/preprocess.py:11-36 | an unreadable input raises FileNotFoundError with the input path. It fails exactly when OpenCV refuses a requested image step, the output path has no directory part, or the write refuses the result: an empty image (possible only without a resize), no writer for the extension, or other than 1, 3 or 4 channels. Once the image steps succeed, a bare output name raises makedirs' FileNotFoundError, and then the write's refusals come in that order. It returns the output path unchanged. A two-element `resize` fixes (width, height), and any other `resize` keeps the size. Grayscale gives one channel. Normalize keeps samples in [0, 255], and normalize alone returns a valid image as it was read. The steps run in the order resize, grayscale, normalize, each exactly when requested |
| Inference.Record | AI/inference.py:42-52 | a record keeps the box's class and the label it is given, and holds the correct rounding of the confidence to 3 places and of each corner to 2 |
| Inference.Detections | AI/inference.py:41-52 | there is exactly one record per model box, in the same order. Each record keeps the box's class, looks up its label, has confidence rounded to 3 places and each corner to 2. A class missing from the table raises KeyError for the first such box |
| Inference.Corners | AI/inference.py:57 | each drawn corner coordinate is the whole part of the rounded one: its sign kept, its magnitude cut down |
| Inference.LabelOrigin | AI/inference.py:62 | the label sits at the box's left edge, 5 rows above its top, and never above row 0 |
| Inference.LabelText | AI/inference.py:61 | the caption is the label, a space, then text that reads back as the confidence rounded to hundredths |
| Inference.MarkFor | AI/inference.py:57-67 | the outline joins the truncated rounded corners in green with thickness 2. The caption carries the label text at `(x1, max(y1 - 5, 0))`, in the Hershey simplex font at scale 0.6, green, thickness 2 |
| Inference.CaptionNotAboveTop | AI/inference.py:62 | no caption is placed above row 0 |
| Inference.Overlays | AI/inference.py:56-67 | one mark per detection, in detection order, and no caption above row 0 |
| Inference.Annotate | AI/inference.py:55-67 | drawing starts from the decoded image. Detection i gets a green outline of thickness 2 between its truncated rounded corners, and its caption at the box's left edge, five rows above the top but never above row 0 |
| Inference.DetectionJson | AI/inference.py:47-52 | a detection is sent as an object with exactly the keys `class_id`, `label`, `confidence` and `bbox`, the box as the list x1, y1, x2, y2 |
| Inference.DetectionJsonInjective | AI/inference.py:47-52 | the JSON record loses nothing: two detections with the same record are equal |
| Inference.ResponseJson | AI/inference.py:74-77 | the answer has exactly the keys `detections` and `annotated_image`, with one JSON record per detection in order |
| Inference.Answer | AI/inference.py:29-77 | an undecodable image raises before the model is asked. A decoded image gets an answer exactly when every box's class is in the table, and otherwise a KeyError. The answer has the two keys, one record per box built from it, and Base64 text that decodes to the JPEG of the annotated image, 4 * ceil(n / 3) characters for n bytes |
| Inference.Detect | AI/inference.py:25-78 | a request without `image` gets 400 and the constant error body, whatever the collaborators are, so nothing is decoded or inferred. Every reply is JSON with status 200 or 400, and a 200 has exactly the two keys |
| Inference.DetectAnswers | AI/inference.py:29-78 | on success, the `detections` list has one record per model box, built from that box. `annotated_image` decodes to the JPEG of the annotated copy, and its length is 4 * ceil(n / 3) |
| Inference.DetectUnknownClass | AI/inference.py:44-45 | a box whose class the table lacks ends the request with the KeyError of the first such box |
| Inference.DetectUsesDefaultSettings | AI/inference.py:34 | the answer depends on the model only through its prediction at 640 pixels and confidence 0.25 |
| App.Lower | UI/app.py:18 | the lowered name has no upper-case ASCII letter and differs from the name only in letter case |
| App.LowerMatchesIgnoringCase | UI/app.py:18 | against a lower-case word, `x.lower() == w` holds exactly when x equals w ignoring case |
| App.LowerIdempotent | UI/app.py:18 | lowering an already lowered name changes nothing |
| App.LowerInWhitelist | UI/app.py:12-18 | the lowered extension is on the list exactly when the extension equals a listed one ignoring case |
| App.LastIndexOf | UI/app.py:18 | finds the last occurrence of a character, or reports that there is none |
| App.RSplitOnce | UI/app.py:18 | `rsplit(sep, 1)` returns the whole string when there is no separator. Otherwise it returns the text before and after the last separator, which rebuild the string |
| App.AllowedFileCharacterization | UI/app.py:12-18 | `allowed_file` (`App.AllowedFile`) holds exactly for a name ending in a dot and then text with no dot that equals one of jpg, jpeg, png, gif ignoring case |
| App.NoDotNotAllowed | UI/app.py:17 | a name without a dot is never allowed |
| App.UpperCaseLastExtensionAllowed | UI/app.py:16-18 | any name ending in `.JPG`, such as `a.tar.JPG`, is allowed: only the last extension counts, in any case |
| App.InnerExtensionIgnored | UI/app.py:16-18 | any name ending in `.jpg.exe` is refused: an allowed extension before the last one does not count |
| App.LastExtensionDecides | UI/app.py:16-18 | for a name `pre.ext` with no dot in ext, `allowed_file` holds exactly when ext matches a listed extension ignoring case, whatever `pre` is |
| App.EffectiveFilename | UI/app.py:34-36 | an absent or empty upload name becomes `uploaded.jpg`, and any other name is kept unchanged |
| App.Join | UI/app.py:41 | `os.path.join`: an absolute second part replaces the first; otherwise one slash joins them, unless the first part is empty or already ends in a slash, when they are simply concatenated |
| App.PlanUpload | UI/app.py:34-45 | the preprocessed path is always `temp/preprocessed_<name>`. The upload is saved as `temp/<name>` unless the name is absolute |
| App.Relay | UI/app.py:58-62 | a 200 reply passes through verbatim as JSON. Any other status is kept, and the body becomes `{"error": "AI backend error", "detail": <text>}` |
| App.RelayPreservesUpstream | UI/app.py:58-62 | the relayed response keeps the detection service's status and its full text |
| App.PreprocessUpload | UI/app.py:41-50 | an unreadable upload raises FileNotFoundError naming the saved path. A readable one fails, with OpenCV's error, exactly when it is empty, the preprocessed path has no writer, or it has other than 1, 3 or 4 channels. Otherwise it is written to `temp/preprocessed_<name>` at exactly 640 x 480 with its channels kept, resized but neither grayed nor normalized |
| App.Forward | UI/app.py:38-55 | an upload that cannot be saved raises FileNotFoundError naming the path, before anything else. A preprocessing failure is raised before anything is sent. Otherwise the preprocessed image is posted under the upload's name and the reply is the result, or RequestError when the POST raises |
| App.UploadImage | UI/app.py:28-62 | a request without `image` gets 400 and the constant error body, whatever the collaborators are, so nothing is saved, preprocessed or sent. Every reply is JSON |
| App.UploadSendsResizedImage | UI/app.py:41-62 | for a readable upload that can be saved and whose preprocessed path has an image writer, the image sent on is exactly 640 x 480 and keeps its channels. It was written to `temp/preprocessed_<name>`, and the answer is the relay of the reply, or a 500 when the POST raises |
| App.UnreadableUploadRaises | UI/app.py:41-50 | an upload that is saved but that OpenCV cannot read raises FileNotFoundError naming its saved path, before anything is sent |
| App.UnwritableUploadRaises | UI/app.py:41-50 | a saved, readable upload whose preprocessed path has no image writer (such as `temp/preprocessed_blob`) raises OpenCV's write error, and the answer does not depend on the POST, so nothing is sent |
| App.UnstorableChannelsUploadRaises | UI/app.py:41-50 | a saved, readable upload with a channel count `imwrite` cannot store raises OpenCV's write error, whatever the POST would return |
| App.UnsavableUploadRaises | UI/app.py:34-42 | an upload whose saved path cannot be created (such as `temp/x/y.jpg`) raises FileNotFoundError naming that path, and the answer depends on no other collaborator, so nothing is read, preprocessed or sent |

## Left out

- HTTP plumbing is not modelled: Flask routing, `index`, `home`, `download_file`, `render_template`, `send_from_directory` and the `app.run` start-up blocks.
- File-system effects are not modelled: `os.makedirs`, `img_file.save`, `cv2.imread`, `cv2.imwrite` and opening the preprocessed file. Whether the save can create its file, what `imread` returns and whether OpenCV has a writer for an extension are parameters; the result says which image would be written where. `makedirs` refusing the empty directory of a bare output name is modelled. Other file-system failures are not: `makedirs` or the save refused for permissions; an upload named `.` or `..`, whose save raises IsADirectoryError rather than FileNotFoundError (the model's `canSave` only says whether the save fails, and the model names every save failure FileNotFoundError); and a write that fails for another reason (a full disk, say), which returns False without raising.
- `requests.post` is a parameter that returns a status and text, or raises (`RequestError`; the kind of exception is not distinguished). It has no timeout or retry to model.
- Model loading and `model.predict` are not modelled: the model is an opaque function. Its confidence threshold and letterbox resize happen inside the library. So the threshold properties (no result below the threshold, and a higher threshold never returns more) are not modelled.
- Pixel work is not modelled: area-averaging resize, the gray conversion, rasterising rectangles and text, JPEG encoding and PIL decoding. These kernels are parameters. The model does not track that the RGB array from PIL is given to OpenCV, which expects BGR.
- Image codecs are not modelled, so there is no decode → encode → decode size property: PIL decoding, `cv2.imencode` and `cv2.imread` are parameters.
- `augment_image` and the albumentations pipeline are not modelled: the code is randomised and not on the request path.
- `print(torch.backends.mps.is_available())` is not modelled: it is a device probe.
- NumText.Hundredths: formats the exact decimal that `round(conf, 3)` names, while Python formats the double nearest to it, so ties are decided on the decimal rather than on the stored double. The caption formats a confidence already rounded to 3 places, so every confidence whose third decimal is 5 is a tie here, except .125, .375, .625 and .875, which are exact in binary. Python decides those ties from the stored double instead: 0.855 is stored as 0.85499999999999998224, so Python writes `0.85` where the model writes `0.86`. This affects Inference.LabelText and NumText.FormatTwoPlaces too. A negative zero (`-0.0`) is not represented, and its `-0.00` text is not modelled.
- Preprocess.Normalize: computes `v / 255 * 255` exactly rather than in float32. For the 8-bit values an image holds, float32 gives back v as well, so the two agree; the model does not prove that float32 fact.
- App.Lower: lowers ASCII letters only. Python lowers all of Unicode. For the four allowed extensions the outcome is the same, since no other character lowers to one of their letters alone.
- Inference.Detections: the class index is taken as an integer. The code converts a float tensor with `int()`.
- Preprocess.ResizeTarget: `resize` is modelled as absent or a sequence of integers. Other Python values are not modelled.
- Inference.Annotate: `np_image.copy()` makes drawing leave the decoded array untouched. Over immutable values every function leaves its input untouched, so the copy cannot be observed and no contract states it.

=== FILE: app.dfy ===
/** The upload front service (UI/app.py): the extension whitelist, and the
    `/upload` handler that names the temporary files, preprocesses the upload
    to 640 x 480, forwards it to the detection service and relays the
    answer. The whitelist is defined there but `/upload` never consults it,
    so here too it stands alone. */
module App {
  import opened Wrappers
  import opened Imaging
  import opened Http
  import opened Preprocess
  import opened Base64

  const AllowedExtensions: seq<string> := ["jpg", "jpeg", "png", "gif"]

  predicate IsAsciiUpper(c: char) {
    'A' <= c <= 'Z'
  }

  /** `c` and `d` are the same character, or the upper- and lower-case
      forms of one ASCII letter (which lie 32 code points apart). */
  predicate SameLetterIgnoringCase(c: char, d: char) {
    || c == d
    || (IsAsciiUpper(c) && d as int == c as int + 32)
    || (IsAsciiUpper(d) && c as int == d as int + 32)
  }

  /** Two strings that differ at most in the case of ASCII letters. */
  predicate EqualIgnoringAsciiCase(a: string, b: string) {
    |a| == |b| && forall i :: 0 <= i < |a| ==> SameLetterIgnoringCase(a[i], b[i])
  }

  predicate NoAsciiUpper(s: string) {
    forall i :: 0 <= i < |s| ==> !IsAsciiUpper(s[i])
  }

  /** `.lower()` on the characters that matter here: the result has no
      upper-case ASCII letter and differs from `s` only in letter case. */
  function Lower(s: string): (r: string)
    ensures NoAsciiUpper(r)
    ensures EqualIgnoringAsciiCase(s, r)
  {
    seq(|s|, i requires 0 <= i < |s| =>
      if IsAsciiUpper(s[i]) then (s[i] as int - 'A' as int + 'a' as int) as char else s[i])
  }

  /** Against a word without upper case, lowering and then comparing is
      comparing ignoring case. */
  lemma LowerMatchesIgnoringCase(s: string, w: string)
    requires NoAsciiUpper(w)
    ensures Lower(s) == w <==> EqualIgnoringAsciiCase(s, w)
  {
  }

  /** Lowering twice is lowering once. */
  lemma LowerIdempotent(s: string)
    ensures Lower(Lower(s)) == Lower(s)
  {
  }

  /** An extension on the whitelist in some letter case. */
  predicate ExtensionAllowed(ext: string) {
    exists w :: w in AllowedExtensions && EqualIgnoringAsciiCase(ext, w)
  }

  /** The whitelist test on the lowered extension is a case-insensitive
      comparison with the listed extensions, which are all lower case. */
  lemma LowerInWhitelist(ext: string)
    ensures Lower(ext) in AllowedExtensions <==> ExtensionAllowed(ext)
  {
    forall w | w in AllowedExtensions
      ensures Lower(ext) == w <==> EqualIgnoringAsciiCase(ext, w)
    {
      LowerMatchesIgnoringCase(ext, w);
    }
  }

  /** The position of the last `c` in `s`, if any. */
  function LastIndexOf(s: string, c: char): (r: Option<nat>)
    ensures r.None? <==> c !in s
    ensures r.Some? ==> r.value < |s| && s[r.value] == c && c !in s[r.value + 1..]
    decreases |s|
  {
    if |s| == 0 then None
    else if s[|s| - 1] == c then Some(|s| - 1)
    else
      var r := LastIndexOf(s[..|s| - 1], c);
      assert s == s[..|s| - 1] + [s[|s| - 1]];
      r
  }

  /** `s.rsplit(sep, 1)`: `[s]` when `sep` does not occur, otherwise the text
      before and after its last occurrence. */
  function RSplitOnce(s: string, sep: char): (parts: seq<string>)
    ensures sep !in s ==> parts == [s]
    ensures sep in s ==> |parts| == 2 && s == parts[0] + [sep] + parts[1] && sep !in parts[1]
  {
    match LastIndexOf(s, sep)
    case None => [s]
    case Some(i) =>
      assert s == s[..i] + [sep] + s[i + 1..];
      [s[..i], s[i + 1..]]
  }

  /** `allowed_file(filename)`. */
  predicate AllowedFile(filename: string) {
    '.' in filename && Lower(RSplitOnce(filename, '.')[1]) in AllowedExtensions
  }

  /** In `pre + [sep] + ext` with no `sep` in `ext`, position |pre| holds
      the last separator. */
  lemma SeparatorPositions(pre: string, ext: string, sep: char)
    requires sep !in ext
    ensures (pre + [sep] + ext)[|pre|] == sep
    ensures forall k :: |pre| < k < |pre| + 1 + |ext| ==> (pre + [sep] + ext)[k] != sep
  {
  }

  /** Splitting at a separator followed by separator-free text is splitting
      at the last separator. */
  lemma LastSeparatorIsUnique(pre: string, ext: string, pre': string, ext': string, sep: char)
    requires pre + [sep] + ext == pre' + [sep] + ext'
    requires sep !in ext && sep !in ext'
    ensures pre == pre' && ext == ext'
  {
    var s := pre + [sep] + ext;
    SeparatorPositions(pre, ext, sep);
    SeparatorPositions(pre', ext', sep);
    assert |pre| == |pre'|;
    assert pre == s[..|pre|] == pre';
    assert ext == s[|pre| + 1..] == ext';
  }

  /** The whitelist accepts exactly the names that end in a dot followed by
      one of jpg, jpeg, png, gif in any letter case, with no further dot: only
      the text after the last dot is examined. */
  lemma AllowedFileCharacterization(filename: string)
    ensures AllowedFile(filename) <==>
              exists pre, ext :: filename == pre + "." + ext && '.' !in ext && ExtensionAllowed(ext)
  {
    if AllowedFile(filename) {
      var parts := RSplitOnce(filename, '.');
      assert filename == parts[0] + "." + parts[1];
      LowerInWhitelist(parts[1]);
    }
    if exists pre, ext :: filename == pre + "." + ext && '.' !in ext && ExtensionAllowed(ext) {
      var pre, ext :| filename == pre + "." + ext && '.' !in ext && ExtensionAllowed(ext);
      assert filename[|pre|] == '.';
      var parts := RSplitOnce(filename, '.');
      LastSeparatorIsUnique(pre, ext, parts[0], parts[1], '.');
      LowerInWhitelist(ext);
    }
  }

  /** A name without a dot is never accepted. */
  lemma NoDotNotAllowed(filename: string)
    requires '.' !in filename
    ensures !AllowedFile(filename)
  {
  }

  /** Only the text after the last dot decides, whatever comes before it. */
  lemma LastExtensionDecides(pre: string, ext: string)
    requires '.' !in ext
    ensures AllowedFile(pre + "." + ext) <==> ExtensionAllowed(ext)
  {
    var parts := RSplitOnce(pre + "." + ext, '.');
    LastSeparatorIsUnique(pre, ext, parts[0], parts[1], '.');
    LowerInWhitelist(ext);
  }

  /** Only the last extension counts, whatever its case and whatever comes
      before it: `a.tar.JPG` is accepted. */
  lemma UpperCaseLastExtensionAllowed(pre: string)
    ensures AllowedFile(pre + "." + "JPG")
  {
    assert EqualIgnoringAsciiCase("JPG", AllowedExtensions[0]);
    LastExtensionDecides(pre, "JPG");
  }

  /** An allowed extension followed by another one does not count:
      `a.jpg.exe` is refused. */
  lemma InnerExtensionIgnored(pre: string)
    ensures !AllowedFile(pre + "." + "jpg" + "." + "exe")
  {
    assert !ExtensionAllowed("exe") by {
      forall w | w in AllowedExtensions
        ensures !EqualIgnoringAsciiCase("exe", w)
      {
        assert !SameLetterIgnoringCase("exe"[0], w[0]);
      }
    }
    LastExtensionDecides(pre + "." + "jpg", "exe");
  }

  const TempDir := "temp"
  const DefaultFilename := "uploaded.jpg"
  const PreprocessedPrefix := "preprocessed_"
  /** The preprocessing target, as (width, height). */
  const TargetSize: seq<int> := [640, 480]

  /** `filename = img_file.filename or 'uploaded.jpg'`. */
  function EffectiveFilename(given: Option<string>): (name: string)
    ensures name != ""
    ensures given.Some? && given.value != "" ==> name == given.value
    ensures given.None? || given.value == "" ==> name == DefaultFilename
  {
    if given.Some? && given.value != "" then given.value else DefaultFilename
  }

  /** `os.path.join(a, b)` (POSIX): an absolute `b` replaces `a`; otherwise
      one slash separates them unless `a` is empty or already ends in one. */
  function Join(a: string, b: string): (p: string)
    ensures |b| > 0 && b[0] == '/' ==> p == b
    ensures (|b| == 0 || b[0] != '/') && |a| > 0 && a[|a| - 1] != '/' ==> p == a + "/" + b
    ensures (|b| == 0 || b[0] != '/') && (|a| == 0 || a[|a| - 1] == '/') ==> p == a + b
  {
    if |b| > 0 && b[0] == '/' then b
    else if |a| == 0 || a[|a| - 1] == '/' then a + b
    else a + "/" + b
  }

  /** The names the handler derives from the upload. */
  datatype UploadPlan = UploadPlan(filename: string, inputPath: string, preprocessedPath: string)

  function PlanUpload(file: UploadedFile): (plan: UploadPlan)
    ensures plan.filename == EffectiveFilename(file.filename)
    // the upload is saved under temp/ unless its name is an absolute path
    ensures plan.filename[0] != '/' ==> plan.inputPath == TempDir + "/" + plan.filename
    ensures plan.filename[0] == '/' ==> plan.inputPath == plan.filename
    // the preprocessed copy is always temp/preprocessed_<name>
    ensures plan.preprocessedPath == TempDir + "/" + PreprocessedPrefix + plan.filename
  {
    var name := EffectiveFilename(file.filename);
    UploadPlan(name, Join(TempDir, name), Join(TempDir, PreprocessedPrefix + name))
  }

  /** The reply of `requests.post` to the detection service. */
  datatype BackendReply = BackendReply(status: int, text: string)

  /** The collaborators: whether `img_file.save` can create a file at a path
      (the handler creates `temp`, but not a directory named inside the
      upload's name, such as the `x` of `x/y.jpg`), what `cv2.imread` makes
      of the saved upload, the OpenCV kernels, and the POST of the
      preprocessed file (under the upload's name) to `/detect`, which gives
      None when `requests.post` raises. */
  datatype FrontEnv = FrontEnv(
    canSave: string -> bool,
    imread: seq<byte> -> Option<Image>,
    kernels: Kernels,
    post: (string, Image) -> Option<BackendReply>)

  /** The relay rule: a 200 passes the body through as JSON; any other status
      is kept and the body is wrapped as the detail of an error. */
  function Relay(reply: BackendReply): (resp: Response)
    ensures resp.Reply? && resp.status == reply.status && resp.contentType == JsonContentType
    ensures reply.status == 200 ==> resp.body == Text(reply.text)
    ensures reply.status != 200 ==>
              resp.body == JsonBody(JObj(map["error" := JStr("AI backend error"), "detail" := JStr(reply.text)]))
  {
    if reply.status == 200 then Reply(200, Text(reply.text), JsonContentType)
    else Reply(reply.status, JsonBody(JObj(map["error" := JStr("AI backend error"), "detail" := JStr(reply.text)])), JsonContentType)
  }

  /** The upstream text a relayed response carries: the body itself, or the
      `detail` of the error wrapper. */
  function UpstreamText(resp: Response): Option<string> {
    if resp.Reply? && resp.body.Text? then Some(resp.body.text)
    else if resp.Reply? && resp.body.JsonBody? && resp.body.json.JObj?
            && "detail" in resp.body.json.fields && resp.body.json.fields["detail"].JStr?
    then Some(resp.body.json.fields["detail"].s)
    else None
  }

  /** Nothing is masked: from the relayed response one recovers the backend's
      status and its full text. */
  lemma RelayPreservesUpstream(reply: BackendReply)
    ensures Relay(reply).status == reply.status
    ensures UpstreamText(Relay(reply)) == Some(reply.text)
  {
  }

  /** Preprocessing as `/upload` calls it: resize to 640 x 480, no grayscale,
      no normalize. */
  function PreprocessUpload(file: UploadedFile, env: FrontEnv): (r: Result<Preprocessed, Exception>)
    ensures env.imread(file.content).None? ==> r == Err(ReadFailure(PlanUpload(file).inputPath))
    // the path under temp/ always has a directory, so only OpenCV can refuse
    // a readable upload: an empty image, no writer, or an unstorable channel count
    ensures env.imread(file.content).Some? ==>
              var img := env.imread(file.content).value;
              (r.Err? <==> img.width == 0 || img.height == 0
                           || !env.kernels.hasWriter(PlanUpload(file).preprocessedPath)
                           || !WritableChannels(img.channels))
    ensures r.Err? ==> r.error == ReadFailure(PlanUpload(file).inputPath) || r.error.OpenCvError?
    ensures r.Ok? ==>
              && r.value.path == TempDir + "/" + PreprocessedPrefix + PlanUpload(file).filename
              && r.value.image.width == 640 && r.value.image.height == 480
              && r.value.image.channels == env.imread(file.content).value.channels
              && ResizeStep in r.value.steps
              && GrayscaleStep !in r.value.steps && NormalizeStep !in r.value.steps
  {
    var plan := PlanUpload(file);
    assert plan.preprocessedPath[|TempDir|] == '/';
    PreprocessImage(env.imread(file.content), plan.inputPath, plan.preprocessedPath,
                    Some(TargetSize), false, false, env.kernels)
  }

  /** The exception `img_file.save(path)` raises when the path's directory
      does not exist. */
  function SaveFailure(path: string): Exception {
    FileNotFoundError("[Errno 2] No such file or directory: '" + path + "'")
  }

  /** Save the upload, preprocess it, then send it on: the detection
      service's reply, or the first exception raised on the way. */
  function Forward(file: UploadedFile, env: FrontEnv): (r: Result<BackendReply, Exception>)
    // an upload that cannot be saved raises before anything else is consulted
    ensures !env.canSave(PlanUpload(file).inputPath) ==> r == Err(SaveFailure(PlanUpload(file).inputPath))
    // a preprocessing failure raises before anything is sent
    ensures env.canSave(PlanUpload(file).inputPath) && PreprocessUpload(file, env).Err? ==>
              r == Err(PreprocessUpload(file, env).error)
    // otherwise the preprocessed image is posted under the upload's name, and
    // its reply is the result; a raising POST gives RequestError
    ensures env.canSave(PlanUpload(file).inputPath) && PreprocessUpload(file, env).Ok? ==>
              var sent := env.post(PlanUpload(file).filename, PreprocessUpload(file, env).value.image);
              && (r.Ok? <==> sent.Some?)
              && (r.Ok? ==> r.value == sent.value)
              && (r.Err? ==> r.error == RequestError)
  {
    var plan := PlanUpload(file);
    if !env.canSave(plan.inputPath) then Err(SaveFailure(plan.inputPath))
    else
      var done :- PreprocessUpload(file, env);
      match env.post(plan.filename, done.image)
      case None => Err(RequestError)
      case Some(reply) => Ok(reply)
  }

  /** `upload_image()`. */
  function UploadImage(req: Request, env: FrontEnv): (resp: Response)
    // a request without an image is refused before anything is saved, preprocessed or sent
    ensures ImageField !in req.files ==> resp == MissingImage()
    ensures resp.Reply? ==> resp.contentType == JsonContentType
  {
    if ImageField !in req.files then MissingImage()
    else
      match Forward(req.files[ImageField], env)
      case Err(e) => Uncaught(e)
      case Ok(reply) => Relay(reply)
  }

  /** Whatever the upload's size, the image sent on is exactly 640 wide and
      480 high, keeps its channels, and was written to the preprocessed path;
      the answer is the relay of the detection service's reply. (`imread`
      with its default flags gives 3 channels, which `imwrite` accepts.) */
  lemma UploadSendsResizedImage(req: Request, env: FrontEnv)
    requires ImageField in req.files
    requires env.canSave(PlanUpload(req.files[ImageField]).inputPath)
    requires var img := env.imread(req.files[ImageField].content);
             img.Some? && img.value.width > 0 && img.value.height > 0 && WritableChannels(img.value.channels)
    requires env.kernels.hasWriter(PlanUpload(req.files[ImageField]).preprocessedPath)
    ensures var file := req.files[ImageField];
            var done := PreprocessUpload(file, env);
            && done.Ok?
            && done.value.image.width == 640 && done.value.image.height == 480
            && done.value.image.channels == env.imread(file.content).value.channels
            && done.value.path == TempDir + "/" + PreprocessedPrefix + PlanUpload(file).filename
            && UploadImage(req, env) == match env.post(PlanUpload(file).filename, done.value.image)
                 case None => Uncaught(RequestError)
                 case Some(reply) => Relay(reply)
  {
  }

  /** An upload OpenCV cannot read raises FileNotFoundError naming the saved
      path, and nothing is sent to the detection service. */
  lemma UnreadableUploadRaises(req: Request, env: FrontEnv)
    requires ImageField in req.files
    requires env.canSave(PlanUpload(req.files[ImageField]).inputPath)
    requires env.imread(req.files[ImageField].content).None?
    ensures UploadImage(req, env)
              == Uncaught(FileNotFoundError("Could not read input image: " + PlanUpload(req.files[ImageField]).inputPath))
  {
  }

  /** A readable upload whose preprocessed path has no image writer (a name
      such as `blob`, without an image extension) raises OpenCV's error from
      the write, and nothing is sent: the answer is the same whatever the
      POST would have returned. */
  lemma UnwritableUploadRaises(req: Request, env: FrontEnv, post': (string, Image) -> Option<BackendReply>)
    requires ImageField in req.files
    requires env.canSave(PlanUpload(req.files[ImageField]).inputPath)
    requires var img := env.imread(req.files[ImageField].content);
             img.Some? && img.value.width > 0 && img.value.height > 0
    requires !env.kernels.hasWriter(PlanUpload(req.files[ImageField]).preprocessedPath)
    ensures UploadImage(req, env) == Uncaught(WriteFailure())
    ensures UploadImage(req, env.(post := post')) == UploadImage(req, env)
  {
  }

  /** A readable upload whose image has a channel count `imwrite` cannot
      store (say 2) is resized, then refused by the write once a writer is
      found, and nothing is sent. */
  lemma UnstorableChannelsUploadRaises(req: Request, env: FrontEnv, post': (string, Image) -> Option<BackendReply>)
    requires ImageField in req.files
    requires env.canSave(PlanUpload(req.files[ImageField]).inputPath)
    requires var img := env.imread(req.files[ImageField].content);
             img.Some? && img.value.width > 0 && img.value.height > 0 && !WritableChannels(img.value.channels)
    requires env.kernels.hasWriter(PlanUpload(req.files[ImageField]).preprocessedPath)
    ensures UploadImage(req, env) == Uncaught(ChannelsWriteFailure())
    ensures UploadImage(req, env.(post := post')) == UploadImage(req, env)
  {
  }

  /** An upload whose saved path cannot be created (a name with a directory
      part that does not exist under `temp`, such as `x/y.jpg`) raises from
      the save. Nothing is read, preprocessed or sent: the answer is the
      same whatever the other collaborators do. */
  lemma UnsavableUploadRaises(req: Request, env: FrontEnv, env': FrontEnv)
    requires ImageField in req.files
    requires !env.canSave(PlanUpload(req.files[ImageField]).inputPath)
    requires env'.canSave == env.canSave
    ensures UploadImage(req, env) == Uncaught(SaveFailure(PlanUpload(req.files[ImageField]).inputPath))
    ensures UploadImage(req, env') == UploadImage(req, env)
  {
  }
}

=== FILE: base64.dfy ===
/** Standard Base64 (section 4 of RFC 4648): the alphabet A-Z a-z 0-9 + /,
    each 3-byte group written as 4 characters, a final group of 1 or 2
    bytes padded with "==" or "=". This is what `base64.b64encode` returns
    for the encoded JPEG buffer. The decoder exists as the encoder's
    inverse. */
module Base64 {
  import opened Wrappers

  type byte = x: int | 0 <= x < 256
  type sextet = x: int | 0 <= x < 64

  predicate IsAlphabetChar(c: char) {
    'A' <= c <= 'Z' || 'a' <= c <= 'z' || '0' <= c <= '9' || c == '+' || c == '/'
  }

  /** The character that stands for a 6-bit value. */
  function SextetChar(i: sextet): (c: char)
    ensures IsAlphabetChar(c) && CharSextet(c) == i
  {
    if i < 26 then ('A' as int + i) as char
    else if i < 52 then ('a' as int + (i - 26)) as char
    else if i < 62 then ('0' as int + (i - 52)) as char
    else if i == 62 then '+'
    else '/'
  }

  /** The 6-bit value an alphabet character stands for. */
  function CharSextet(c: char): sextet
    requires IsAlphabetChar(c)
  {
    if 'A' <= c <= 'Z' then c as int - 'A' as int
    else if 'a' <= c <= 'z' then c as int - 'a' as int + 26
    else if '0' <= c <= '9' then c as int - '0' as int + 52
    else if c == '+' then 62
    else 63
  }

  /** Three bytes, 24 bits, as four characters. */
  function EncodeGroup(a: byte, b: byte, c: byte): string {
    [SextetChar(a / 4), SextetChar(a % 4 * 16 + b / 16), SextetChar(b % 16 * 4 + c / 64), SextetChar(c % 64)]
  }

  /** A final group of two bytes, padded with one '='. */
  function EncodeTwo(a: byte, b: byte): string {
    [SextetChar(a / 4), SextetChar(a % 4 * 16 + b / 16), SextetChar(b % 16 * 4), '=']
  }

  /** A final group of one byte, padded with two '='. */
  function EncodeOne(a: byte): string {
    [SextetChar(a / 4), SextetChar(a % 4 * 16), '=', '=']
  }

  /** `base64.b64encode(data)`. The output is 4 * ceil(n / 3) characters
      for n input bytes, all from the alphabet except the trailing padding. */
  function Encode(data: seq<byte>): (s: string)
    ensures |s| == 4 * ((|data| + 2) / 3)
    ensures forall i :: 0 <= i < |s| && s[i] == '=' ==> i >= |s| - 2
    ensures forall i :: 0 <= i < |s| ==> IsAlphabetChar(s[i]) || s[i] == '='
    decreases |data|
  {
    if |data| == 0 then ""
    else if |data| == 1 then EncodeOne(data[0])
    else if |data| == 2 then EncodeTwo(data[0], data[1])
    else EncodeGroup(data[0], data[1], data[2]) + Encode(data[3..])
  }

  function DecodeGroup(q: string): (r: Option<seq<byte>>)
    requires |q| == 4
  {
    if !(IsAlphabetChar(q[0]) && IsAlphabetChar(q[1]) && IsAlphabetChar(q[2]) && IsAlphabetChar(q[3])) then None
    else
      var s0, s1, s2, s3 := CharSextet(q[0]), CharSextet(q[1]), CharSextet(q[2]), CharSextet(q[3]);
      Some([s0 * 4 + s1 / 16, s1 % 16 * 16 + s2 / 4, s2 % 4 * 64 + s3])
  }

  /** The last group, which may carry one or two padding characters. */
  function DecodeFinal(q: string): (r: Option<seq<byte>>)
    requires |q| == 4
  {
    if q[2] == '=' && q[3] == '=' then
      if IsAlphabetChar(q[0]) && IsAlphabetChar(q[1]) then Some([CharSextet(q[0]) * 4 + CharSextet(q[1]) / 16])
      else None
    else if q[3] == '=' then
      if IsAlphabetChar(q[0]) && IsAlphabetChar(q[1]) && IsAlphabetChar(q[2]) then
        var s1 := CharSextet(q[1]);
        Some([CharSextet(q[0]) * 4 + s1 / 16, s1 % 16 * 16 + CharSextet(q[2]) / 4])
      else None
    else DecodeGroup(q)
  }

  /** Base64 text back to bytes; None when the text is not padded Base64. */
  function Decode(s: string): (r: Option<seq<byte>>)
    decreases |s|
  {
    if |s| == 0 then Some([])
    else if |s| < 4 then None
    else if |s| == 4 then DecodeFinal(s)
    else match DecodeGroup(s[..4])
      case None => None
      case Some(head) =>
        match Decode(s[4..])
        case None => None
        case Some(rest) => Some(head + rest)
  }

  lemma GroupRoundTrip(a: byte, b: byte, c: byte)
    ensures DecodeGroup(EncodeGroup(a, b, c)) == Some([a, b, c])
    ensures DecodeFinal(EncodeGroup(a, b, c)) == Some([a, b, c])
  {
    var q := EncodeGroup(a, b, c);
    assert CharSextet(q[0]) == a / 4 && CharSextet(q[1]) == a % 4 * 16 + b / 16;
    assert CharSextet(q[2]) == b % 16 * 4 + c / 64 && CharSextet(q[3]) == c % 64;
    assert (a % 4 * 16 + b / 16) / 16 == a % 4;
    assert (a % 4 * 16 + b / 16) % 16 == b / 16;
    assert (b % 16 * 4 + c / 64) / 4 == b % 16;
    assert (b % 16 * 4 + c / 64) % 4 == c / 64;
  }

  lemma OneRoundTrip(a: byte)
    ensures Decode(EncodeOne(a)) == Some([a])
  {
    var q := EncodeOne(a);
    assert CharSextet(q[0]) == a / 4 && CharSextet(q[1]) == a % 4 * 16;
    assert (a % 4 * 16) / 16 == a % 4;
    assert DecodeFinal(q) == Some([a]);
  }

  lemma TwoRoundTrip(a: byte, b: byte)
    ensures Decode(EncodeTwo(a, b)) == Some([a, b])
  {
    var q := EncodeTwo(a, b);
    assert CharSextet(q[0]) == a / 4 && CharSextet(q[1]) == a % 4 * 16 + b / 16;
    assert CharSextet(q[2]) == b % 16 * 4;
    assert (a % 4 * 16 + b / 16) / 16 == a % 4;
    assert (a % 4 * 16 + b / 16) % 16 == b / 16;
    assert (b % 16 * 4) / 4 == b % 16;
    assert DecodeFinal(q) == Some([a, b]);
  }

  /** Encoding one 3-byte group, then the rest. */
  lemma EncodeUnfold(data: seq<byte>)
    requires |data| >= 3
    ensures Encode(data) == EncodeGroup(data[0], data[1], data[2]) + Encode(data[3..])
  {
  }

  /** Decoding undoes encoding, for every byte string. */
  lemma {:induction false} DecodeEncode(data: seq<byte>)
    ensures Decode(Encode(data)) == Some(data)
    decreases |data|
  {
    if |data| == 0 {
    } else if |data| == 1 {
      OneRoundTrip(data[0]);
      assert data == [data[0]];
    } else if |data| == 2 {
      TwoRoundTrip(data[0], data[1]);
      assert data == [data[0], data[1]];
    } else {
      var rest := data[3..];
      var head := EncodeGroup(data[0], data[1], data[2]);
      GroupRoundTrip(data[0], data[1], data[2]);
      EncodeUnfold(data);
      assert data == [data[0], data[1], data[2]] + rest;
      if |rest| == 0 {
        assert Encode(rest) == "";
        assert Encode(data) == head;
        assert data == [data[0], data[1], data[2]];
      } else {
        DecodeEncode(rest);
        DecodeAfterGroup(head, Encode(rest));
      }
    }
  }

  /** A full group followed by at least one more group decodes group by group. */
  lemma DecodeAfterGroup(head: string, tail: string)
    requires |head| == 4 && |tail| >= 4
    requires DecodeGroup(head).Some? && Decode(tail).Some?
    ensures Decode(head + tail) == Some(DecodeGroup(head).value + Decode(tail).value)
  {
    var s := head + tail;
    assert s[..4] == head && s[4..] == tail;
  }
}

=== FILE: decimals.dfy ===
/** Decimal rounding over exact values.

    The services round floating-point values with Python's `round(x, n)`
    and cut them to pixel positions with `int(...)`. Here a value the model
    reports is its exact `real`, a rounded value is a fixed-point `Decimal`
    (an integer count of 10^-places units), rounding is round-half-to-even
    (Python's tie rule) and `int` truncates toward zero. */
module Decimals {

  function Pow10(n: nat): (r: nat)
    ensures r >= 1
  {
    if n == 0 then 1 else 10 * Pow10(n - 1)
  }

  /** The integer nearest to `x`; when `x` lies exactly halfway between two
      integers, the even one. */
  function RoundHalfEven(x: real): (n: int)
    ensures -0.5 <= x - n as real <= 0.5
    ensures (x - n as real == 0.5 || n as real - x == 0.5) ==> n % 2 == 0
  {
    var f := x.Floor;
    var frac := x - f as real;
    if frac < 0.5 then f
    else if frac > 0.5 then f + 1
    else if f % 2 == 0 then f
    else f + 1
  }

  /** The two clauses of RoundHalfEven's contract pin the result down: any
      integer meeting them is that result. */
  lemma RoundHalfEvenUnique(x: real, m: int)
    requires -0.5 <= x - m as real <= 0.5
    requires (x - m as real == 0.5 || m as real - x == 0.5) ==> m % 2 == 0
    ensures m == RoundHalfEven(x)
  {
  }

  /** Rounding never reverses the order of two values. */
  lemma RoundHalfEvenMonotone(x: real, y: real)
    requires x <= y
    ensures RoundHalfEven(x) <= RoundHalfEven(y)
  {
  }

  /** A fixed-point number: `units` counts steps of 10^-places. */
  datatype Decimal = Decimal(units: int, places: nat)

  /** `d` is a correct rounding of `x` to `places` decimals: it has that
      many places, lies within half a unit of `x`, and on a tie is the even
      multiple. */
  predicate RoundsTo(x: real, places: nat, d: Decimal) {
    var scaled := x * Pow10(places) as real;
    && d.places == places
    && -0.5 <= scaled - d.units as real <= 0.5
    && ((scaled - d.units as real == 0.5 || d.units as real - scaled == 0.5) ==> d.units % 2 == 0)
  }

  /** Python's `round(x, places)`: the nearest multiple of 10^-places, ties
      to the even multiple. */
  function RoundTo(x: real, places: nat): (d: Decimal)
    ensures d.places == places
    ensures -0.5 <= x * Pow10(places) as real - d.units as real <= 0.5
    ensures RoundsTo(x, places, d)
  {
    Decimal(RoundHalfEven(x * Pow10(places) as real), places)
  }

  /** A correct rounding is unique: it is the one `RoundTo` computes. */
  lemma RoundsToUnique(x: real, places: nat, d: Decimal)
    requires RoundsTo(x, places, d)
    ensures d == RoundTo(x, places)
  {
    RoundHalfEvenUnique(x * Pow10(places) as real, d.units);
  }

  /** On a tie, `round` picks the even multiple: `round(0.125, 2)` is 0.12. */
  lemma RoundToTiesToEven(x: real, places: nat)
    requires var u := RoundTo(x, places).units as real;
             x * Pow10(places) as real - u == 0.5 || u - x * Pow10(places) as real == 0.5
    ensures RoundTo(x, places).units % 2 == 0
  {
  }

  function Abs(x: int): nat {
    if x < 0 then -x else x
  }

  /** The quotient of a natural by a positive divisor, rounded down. */
  function Quot(a: nat, p: nat): (q: nat)
    requires p >= 1
    ensures q * p <= a < (q + 1) * p
  {
    var q := a / p;
    assert a == q * p + a % p;
    assert (q + 1) * p == q * p + p;
    q
  }

  /** `n` is the whole part of `d`: it has the sign of `d`, and its
      magnitude is the magnitude of `d` cut down to a whole number. */
  predicate IsWholePart(n: int, d: Decimal) {
    && (d.units >= 0 ==> n >= 0)
    && (d.units <= 0 ==> n <= 0)
    && Abs(n) * Pow10(d.places) <= Abs(d.units) < (Abs(n) + 1) * Pow10(d.places)
  }

  /** A value has one whole part. */
  lemma WholePartUnique(n: int, m: int, d: Decimal)
    requires IsWholePart(n, d) && IsWholePart(m, d)
    ensures n == m
  {
    var p := Pow10(d.places);
    CancelFactor(Abs(n), Abs(m) + 1, p);
    CancelFactor(Abs(m), Abs(n) + 1, p);
  }

  lemma CancelFactor(a: nat, b: nat, p: nat)
    requires p >= 1 && a * p < b * p
    ensures a < b
  {
  }

  /** Python's `int(v)` on a rounded value: truncation toward zero. */
  function Truncate(d: Decimal): (n: int)
    ensures d.units >= 0 ==> n >= 0
    ensures d.units <= 0 ==> n <= 0
    ensures Abs(n) * Pow10(d.places) <= Abs(d.units) < (Abs(n) + 1) * Pow10(d.places)
    ensures IsWholePart(n, d)
  {
    var q: int := Quot(Abs(d.units), Pow10(d.places));
    if d.units >= 0 then q else -q
  }

  /** Rounding a non-negative `x` to hundredths lands between 100 times its
      integer part and the next multiple of 100, and on that next multiple
      exactly when `x` is within 0.005 below the next integer. */
  lemma HundredthsOfCoordinate(x: real)
    requires x >= 0.0
    ensures var f, m := x.Floor, RoundTo(x, 2).units;
      && 100 * f <= m <= 100 * f + 100
      && (m == 100 * f + 100 <==> x >= f as real + 0.995)
  {
    var f, m := x.Floor, RoundTo(x, 2).units;
    var y := x * 100.0;
    assert Pow10(2) == 100;
    assert -0.5 <= y - m as real <= 0.5;
    assert (100 * f) as real <= y < (100 * f + 100) as real;
    if x >= f as real + 0.995 {
      assert y >= (100 * f) as real + 99.5;
      RoundHalfEvenUnique(y, 100 * f + 100);
    }
  }

  /** Truncating a count of hundredths between 100 f and 100 f + 100. */
  lemma TruncateHundredths(f: int, m: int)
    requires f >= 0 && 100 * f <= m <= 100 * f + 100
    ensures Truncate(Decimal(m, 2)) == if m == 100 * f + 100 then f + 1 else f
  {
    assert Pow10(2) == 100;
    var n := Truncate(Decimal(m, 2));
    assert n * 100 <= m < (n + 1) * 100;
  }

  /** The pixel position drawn for a non-negative coordinate `x` is
      `int(round(x, 2))`. It is the integer part of `x`, except that values
      within 0.005 of the next integer are carried up to it: the truncation
      sees the rounded value, not the raw one. */
  lemma TruncatedRoundingOfCoordinate(x: real)
    requires x >= 0.0
    ensures var n := Truncate(RoundTo(x, 2));
      n == x.Floor || (n == x.Floor + 1 && x >= x.Floor as real + 0.995)
    ensures x >= x.Floor as real + 0.995 ==> Truncate(RoundTo(x, 2)) == x.Floor + 1
  {
    HundredthsOfCoordinate(x);
    TruncateHundredths(x.Floor, RoundTo(x, 2).units);
    assert RoundTo(x, 2) == Decimal(RoundTo(x, 2).units, 2);
  }

  /** A concrete witness of that carry: 2.999 is drawn at pixel 3, where
      truncating the raw value would give 2. */
  lemma RoundingCarriesCoordinateUp()
    ensures Truncate(RoundTo(2.999, 2)) == 3
    ensures (2.999).Floor == 2
  {
  }
}

=== FILE: http.dfy ===
/** The values that cross the HTTP boundary of both services: the multipart
    request, the JSON documents `jsonify` serialises, the response, and the
    exceptions that escape a handler (Flask answers those with a generic
    500 page). */
module Http {
  import opened Wrappers
  import opened Decimals
  import opened Base64

  /** JSON as the handlers build it; objects are unordered. */
  datatype Json =
    | JInt(i: int)
    | JNum(n: Decimal)
    | JStr(s: string)
    | JArr(items: seq<Json>)
    | JObj(fields: map<string, Json>)

  /** One multipart file field: the client's file name (absent or empty
      when the client sent none) and the bytes. */
  datatype UploadedFile = UploadedFile(filename: Option<string>, content: seq<byte>)

  /** `request.files`, keyed by form field name. */
  datatype Request = Request(files: map<string, UploadedFile>)

  datatype Body = Text(text: string) | JsonBody(json: Json)

  datatype Exception =
    | FileNotFoundError(message: string)
    | KeyError(key: int)
    | ImageDecodeError
    // `requests.post` raised (the connection failed, for instance)
    | RequestError
    | OpenCvError(failure: CvFailure)

  /** Which OpenCV check raised `cv2.error`. */
  datatype CvFailure =
    // `resize` of an empty source, or to a side that is not positive
    | ResizeRefused
    // `cvtColor` of an empty source
    | EmptyConversionSource
    // `cvtColor` BGR-to-gray of a source without 3 or 4 channels
    | ConversionChannels
    // `imwrite` of an empty image
    | EmptyWrite
    // `imwrite` finds no writer for the path's extension
    | NoWriter
    // `imwrite` of an image without 1, 3 or 4 channels
    | WriteChannels

  datatype Response =
    | Reply(status: int, body: Body, contentType: string)
    | Uncaught(exception: Exception)

  const ImageField := "image"
  const JsonContentType := "application/json"

  /** `{"error": message}`. */
  function ErrorObject(message: string): Json {
    JObj(map["error" := JStr(message)])
  }

  /** The answer both services give a request without an `image` field. */
  function MissingImage(): Response {
    Reply(400, JsonBody(ErrorObject("No image file provided")), JsonContentType)
  }
}

=== FILE: imaging.dfy ===
/** The in-memory image both services pass around (a NumPy array from
    `cv2.imread` or from PIL): `height` rows of `width` pixels, each pixel
    `channels` 8-bit samples, stored row by row. Pixel values are only
    examined where the code itself constrains them. */
module Imaging {

  datatype Image = Image(width: nat, height: nat, channels: nat, samples: seq<int>)

  predicate IsSample(v: int) {
    0 <= v <= 255
  }

  /** The sample count matches the shape and every sample is an 8-bit value. */
  predicate Valid(img: Image) {
    && |img.samples| == img.width * img.height * img.channels
    && forall i :: 0 <= i < |img.samples| ==> IsSample(img.samples[i])
  }

  /** OpenCV's `saturate_cast<uchar>`: how a kernel's result is stored in an
      8-bit sample. */
  function Saturate(v: int): (b: int)
    ensures IsSample(b)
    ensures IsSample(v) ==> b == v
    ensures v < 0 ==> b == 0
    ensures v > 255 ==> b == 255
  {
    if v < 0 then 0 else if v > 255 then 255 else v
  }
}

=== FILE: inference.dfy ===
/** The `/detect` handler of the inference service (AI/inference.py): turn
    the model's boxes into detection records, draw them on a copy of the
    decoded image, and answer with the records and the Base64 text of the
    annotated JPEG. The image decoder, the YOLO model and the JPEG encoder
    are opaque collaborators passed in as functions. */
module Inference {
  import opened Wrappers
  import opened Decimals
  import opened NumText
  import opened Base64
  import opened Imaging
  import opened Http

  /** One box as the model reports it: corners in pixels, score, class. */
  datatype RawBox = RawBox(x1: real, y1: real, x2: real, y2: real, conf: real, cls: int)

  /** The first result of `model.predict`: its boxes in the model's order
      and its class-name table (`result.names`). */
  datatype Prediction = Prediction(boxes: seq<RawBox>, names: map<int, string>)

  datatype PredictArgs = PredictArgs(imgsz: nat, conf: real)

  /** The handler always asks for 640-pixel inference at confidence 0.25. */
  const PredictDefaults := PredictArgs(640, 0.25)

  /** The collaborators: PIL decoding with conversion to RGB, the model, and
      `cv2.imencode('.jpg', ...)`. */
  datatype DetectEnv = DetectEnv(
    decodeRgb: seq<byte> -> Option<Image>,
    predict: (Image, PredictArgs) -> Prediction,
    encodeJpeg: Canvas -> seq<byte>)

  datatype BBox = BBox(x1: Decimal, y1: Decimal, x2: Decimal, y2: Decimal)

  datatype Detection = Detection(classId: int, className: string, confidence: Decimal, bbox: BBox)

  /** The record built for one box: confidence to 3 decimals, each corner
      coordinate to 2. */
  function Record(b: RawBox, className: string): (d: Detection)
    ensures d.classId == b.cls && d.className == className
    ensures RoundsTo(b.conf, 3, d.confidence)
    ensures && RoundsTo(b.x1, 2, d.bbox.x1) && RoundsTo(b.y1, 2, d.bbox.y1)
            && RoundsTo(b.x2, 2, d.bbox.x2) && RoundsTo(b.y2, 2, d.bbox.y2)
  {
    Detection(b.cls, className, RoundTo(b.conf, 3),
              BBox(RoundTo(b.x1, 2), RoundTo(b.y1, 2), RoundTo(b.x2, 2), RoundTo(b.y2, 2)))
  }

  /** The loop over `result.boxes`. `class_names[cls]` raises KeyError for a
      class the table lacks, which ends the request. */
  function Detections(boxes: seq<RawBox>, names: map<int, string>): (r: Result<seq<Detection>, Exception>)
    ensures r.Ok? <==> forall i :: 0 <= i < |boxes| ==> boxes[i].cls in names
    // one record per box, in the box order, nothing filtered or re-sorted
    ensures r.Ok? ==> |r.value| == |boxes|
    ensures r.Ok? ==> forall i :: 0 <= i < |boxes| ==>
              && r.value[i].classId == boxes[i].cls
              && r.value[i].className == names[boxes[i].cls]
              && r.value[i].confidence == RoundTo(boxes[i].conf, 3)
              && r.value[i].bbox == BBox(RoundTo(boxes[i].x1, 2), RoundTo(boxes[i].y1, 2),
                                         RoundTo(boxes[i].x2, 2), RoundTo(boxes[i].y2, 2))
    // the KeyError names the first box whose class is missing
    ensures r.Err? ==> exists k :: (0 <= k < |boxes| && boxes[k].cls !in names
              && r.error == KeyError(boxes[k].cls)
              && forall j :: 0 <= j < k ==> boxes[j].cls in names)
    decreases |boxes|
  {
    if |boxes| == 0 then Ok([])
    else if boxes[0].cls !in names then Err(KeyError(boxes[0].cls))
    else
      assert forall j :: 1 <= j < |boxes| ==> boxes[j] == boxes[1..][j - 1];
      var rest :- Detections(boxes[1..], names);
      Ok([Record(boxes[0], names[boxes[0].cls])] + rest)
  }

  datatype Point = Point(x: int, y: int)

  /** A colour as the three channel values handed to OpenCV. */
  datatype Color = Color(c0: int, c1: int, c2: int)

  const Green := Color(0, 255, 0)
  const LineThickness := 2

  /** The caption font; the code uses only `cv2.FONT_HERSHEY_SIMPLEX`. */
  datatype Font = HersheySimplex

  /** The caption scale, 0.6. */
  const FontScale := Decimal(6, 1)

  /** `cv2.rectangle(img, corner1, corner2, color, thickness)`. */
  datatype Outline = Outline(corner1: Point, corner2: Point, color: Color, thickness: int)

  /** `cv2.putText(img, text, origin, font, scale, color, thickness)`. */
  datatype Caption = Caption(text: string, origin: Point, font: Font, scale: Decimal, color: Color, thickness: int)

  /** What is drawn for one detection: its outline, then its caption. */
  datatype Mark = Mark(outline: Outline, caption: Caption)

  /** The annotated image before rasterisation: the copy it starts from and
      the marks drawn on it, in drawing order. */
  datatype Canvas = Canvas(base: Image, marks: seq<Mark>)

  /** `map(int, det["bbox"])`: the rounded corners cut toward zero. */
  function Corners(b: BBox): (c: (Point, Point))
    ensures IsWholePart(c.0.x, b.x1) && IsWholePart(c.0.y, b.y1)
    ensures IsWholePart(c.1.x, b.x2) && IsWholePart(c.1.y, b.y2)
  {
    (Point(Truncate(b.x1), Truncate(b.y1)), Point(Truncate(b.x2), Truncate(b.y2)))
  }

  /** The text origin `(x1, max(y1 - 5, 0))`: five rows above the box, but
      never above row 0. */
  function LabelOrigin(corner: Point): (p: Point)
    ensures p.x == corner.x
    ensures p.y >= 0
    ensures corner.y >= 5 ==> p.y == corner.y - 5
    ensures corner.y < 5 ==> p.y == 0
  {
    Point(corner.x, if corner.y - 5 > 0 then corner.y - 5 else 0)
  }

  /** `f"{label} {confidence:.2f}"`: the label, a space, and the rounded
      confidence formatted again to two decimals. */
  function LabelText(d: Detection): (s: string)
    ensures |s| > |d.className| + 1
    ensures s[..|d.className|] == d.className && s[|d.className|] == ' '
    ensures ParseTwoPlaces(s[|d.className| + 1..])
              == Some(TwoPlaces(d.confidence.units < 0, Hundredths(d.confidence)))
  {
    var s := d.className + " " + FormatTwoPlaces(d.confidence);
    assert s[|d.className| + 1..] == FormatTwoPlaces(d.confidence);
    s
  }

  /** The mark for one detection: the outline between the truncated
      corners, and the label just above the top-left corner. */
  function MarkFor(d: Detection): (m: Mark)
    ensures m.outline == Outline(Corners(d.bbox).0, Corners(d.bbox).1, Green, LineThickness)
    ensures m.caption.text == LabelText(d)
    ensures m.caption.origin.x == Corners(d.bbox).0.x
    ensures m.caption.origin.y == (if Corners(d.bbox).0.y >= 5 then Corners(d.bbox).0.y - 5 else 0)
    ensures m.caption.font == HersheySimplex && m.caption.scale == FontScale
    ensures m.caption.color == Green && m.caption.thickness == LineThickness
  {
    var (p1, p2) := Corners(d.bbox);
    Mark(Outline(p1, p2, Green, LineThickness),
         Caption(LabelText(d), LabelOrigin(p1), HersheySimplex, FontScale, Green, LineThickness))
  }

  /** No caption is placed above the top row. */
  lemma CaptionNotAboveTop(d: Detection)
    ensures MarkFor(d).caption.origin.y >= 0
  {
    var y := Corners(d.bbox).0.y;
    assert MarkFor(d).caption.origin.y == (if y >= 5 then y - 5 else 0);
  }

  /** The drawing loop: one mark per detection, in detection order, so
      later marks are drawn over earlier ones. */
  function Overlays(dets: seq<Detection>): (marks: seq<Mark>)
    ensures |marks| == |dets|
    ensures forall i :: 0 <= i < |dets| ==> marks[i] == MarkFor(dets[i])
    // no caption is placed above the top row
    ensures forall i :: 0 <= i < |marks| ==> marks[i].caption.origin.y >= 0
  {
    var marks := seq(|dets|, i requires 0 <= i < |dets| => MarkFor(dets[i]));
    assert forall i :: 0 <= i < |marks| ==> marks[i].caption.origin.y >= 0 by {
      forall i | 0 <= i < |marks| ensures marks[i].caption.origin.y >= 0 {
        assert marks[i] == MarkFor(dets[i]);
        CaptionNotAboveTop(dets[i]);
      }
    }
    marks
  }

  /** `annotated_image = np_image.copy()` and the drawing loop: the canvas
      starts from the decoded image, and detection `i` gets a green outline
      of thickness 2 between its truncated corners and its caption at the
      left edge, five rows above the top but never above row 0. */
  function Annotate(img: Image, dets: seq<Detection>): (c: Canvas)
    ensures c.base == img
    ensures |c.marks| == |dets|
    ensures forall i :: 0 <= i < |dets| ==>
              var (p1, p2) := Corners(dets[i].bbox);
              && c.marks[i].outline == Outline(p1, p2, Green, LineThickness)
              && c.marks[i].caption.text == LabelText(dets[i])
              && c.marks[i].caption.origin == Point(p1.x, if p1.y >= 5 then p1.y - 5 else 0)
  {
    Canvas(img, Overlays(dets))
  }

  /** One detection as `jsonify` sends it. */
  function DetectionJson(d: Detection): (j: Json)
    ensures j.JObj? && j.fields.Keys == {"class_id", "label", "confidence", "bbox"}
    ensures j.fields["class_id"] == JInt(d.classId) && j.fields["label"] == JStr(d.className)
    ensures j.fields["confidence"] == JNum(d.confidence)
    // the corners as a four-element list, in the order x1, y1, x2, y2
    ensures j.fields["bbox"] == JArr([JNum(d.bbox.x1), JNum(d.bbox.y1), JNum(d.bbox.x2), JNum(d.bbox.y2)])
  {
    JObj(map[
      "class_id" := JInt(d.classId),
      "label" := JStr(d.className),
      "confidence" := JNum(d.confidence),
      "bbox" := JArr([JNum(d.bbox.x1), JNum(d.bbox.y1), JNum(d.bbox.x2), JNum(d.bbox.y2)])])
  }

  /** The JSON record loses nothing: two detections with the same record
      are the same detection. */
  lemma DetectionJsonInjective(d: Detection, e: Detection)
    requires DetectionJson(d) == DetectionJson(e)
    ensures d == e
  {
    var jd, je := DetectionJson(d), DetectionJson(e);
    assert jd.fields["bbox"].items[0] == je.fields["bbox"].items[0];
    assert jd.fields["bbox"].items[1] == je.fields["bbox"].items[1];
    assert jd.fields["bbox"].items[2] == je.fields["bbox"].items[2];
    assert jd.fields["bbox"].items[3] == je.fields["bbox"].items[3];
  }

  /** The success document: the detection list and the Base64 image text. */
  function ResponseJson(dets: seq<Detection>, annotated: string): (j: Json)
    ensures j.JObj? && j.fields.Keys == {"detections", "annotated_image"}
    ensures j.fields["annotated_image"] == JStr(annotated)
    ensures j.fields["detections"].JArr? && |j.fields["detections"].items| == |dets|
    ensures forall i :: 0 <= i < |dets| ==> j.fields["detections"].items[i] == DetectionJson(dets[i])
  {
    JObj(map[
      "detections" := JArr(seq(|dets|, i requires 0 <= i < |dets| => DetectionJson(dets[i]))),
      "annotated_image" := JStr(annotated)])
  }

  /** Everything after the field check: decode, predict, build the records,
      draw and encode; the success document, or the first exception raised. */
  function Answer(content: seq<byte>, env: DetectEnv): (r: Result<Json, Exception>)
    // an undecodable image raises before the model is asked anything
    ensures env.decodeRgb(content).None? ==> r == Err(ImageDecodeError)
    // a decoded image gets an answer exactly when every box's class is named
    ensures env.decodeRgb(content).Some? ==>
              var p := env.predict(env.decodeRgb(content).value, PredictDefaults);
              (r.Ok? <==> forall i :: 0 <= i < |p.boxes| ==> p.boxes[i].cls in p.names)
    ensures r.Err? ==> r.error == ImageDecodeError || r.error.KeyError?
    // the answer: one record per box, built from it, and the Base64 text of
    // the JPEG of the annotated image
    ensures r.Ok? ==>
              && env.decodeRgb(content).Some?
              && var img := env.decodeRgb(content).value;
              && var p := env.predict(img, PredictDefaults);
              && r.value.JObj? && r.value.fields.Keys == {"detections", "annotated_image"}
              && r.value.fields["detections"].JArr?
              && |r.value.fields["detections"].items| == |p.boxes|
              && (forall i :: 0 <= i < |p.boxes| ==>
                    r.value.fields["detections"].items[i] == DetectionJson(Record(p.boxes[i], p.names[p.boxes[i].cls])))
              && r.value.fields["annotated_image"].JStr?
              && var jpeg := env.encodeJpeg(Annotate(img, Detections(p.boxes, p.names).value));
              && Decode(r.value.fields["annotated_image"].s) == Some(jpeg)
              && |r.value.fields["annotated_image"].s| == 4 * ((|jpeg| + 2) / 3)
  {
    match env.decodeRgb(content)
    case None => Err(ImageDecodeError)
    case Some(img) =>
      var prediction := env.predict(img, PredictDefaults);
      var dets :- Detections(prediction.boxes, prediction.names);
      DecodeEncode(env.encodeJpeg(Annotate(img, dets)));
      Ok(ResponseJson(dets, Encode(env.encodeJpeg(Annotate(img, dets)))))
  }

  /** `detect()`. */
  function Detect(req: Request, env: DetectEnv): (resp: Response)
    // a request without an image is refused before anything is decoded or inferred
    ensures ImageField !in req.files ==> resp == MissingImage()
    ensures resp.Reply? ==> resp.contentType == JsonContentType && (resp.status == 200 || resp.status == 400)
    ensures resp.Reply? && resp.status == 200 ==>
              resp.body.JsonBody? && resp.body.json.JObj?
              && resp.body.json.fields.Keys == {"detections", "annotated_image"}
  {
    if ImageField !in req.files then MissingImage()
    else
      match Answer(req.files[ImageField].content, env)
      case Err(e) => Uncaught(e)
      case Ok(doc) => Reply(200, JsonBody(doc), JsonContentType)
  }

  /** The full success answer: one JSON record per model box in the model's
      order, and the Base64 text of the JPEG of the annotated copy of the
      decoded image, 4 * ceil(n / 3) characters for n JPEG bytes. */
  lemma DetectAnswers(req: Request, env: DetectEnv)
    requires ImageField in req.files
    requires env.decodeRgb(req.files[ImageField].content).Some?
    requires var p := env.predict(env.decodeRgb(req.files[ImageField].content).value, PredictDefaults);
             forall i :: 0 <= i < |p.boxes| ==> p.boxes[i].cls in p.names
    ensures var img := env.decodeRgb(req.files[ImageField].content).value;
            var p := env.predict(img, PredictDefaults);
            var dets := Detections(p.boxes, p.names).value;
            var resp := Detect(req, env);
            && resp == Reply(200, resp.body, JsonContentType)
            && resp.body.JsonBody?
            && var fields := resp.body.json.fields;
            && |fields["detections"].items| == |p.boxes|
            && (forall i :: 0 <= i < |p.boxes| ==>
                  fields["detections"].items[i] == DetectionJson(Record(p.boxes[i], p.names[p.boxes[i].cls])))
            && fields["annotated_image"].JStr?
            && Decode(fields["annotated_image"].s) == Some(env.encodeJpeg(Annotate(img, dets)))
            && |fields["annotated_image"].s| == 4 * ((|env.encodeJpeg(Annotate(img, dets))| + 2) / 3)
  {
  }

  /** A box whose class the table lacks ends the request with the KeyError
      of the first such box; no answer is sent. */
  lemma DetectUnknownClass(req: Request, env: DetectEnv)
    requires ImageField in req.files
    requires env.decodeRgb(req.files[ImageField].content).Some?
    requires var p := env.predict(env.decodeRgb(req.files[ImageField].content).value, PredictDefaults);
             exists i :: 0 <= i < |p.boxes| && p.boxes[i].cls !in p.names
    ensures var p := env.predict(env.decodeRgb(req.files[ImageField].content).value, PredictDefaults);
            exists k :: 0 <= k < |p.boxes| && p.boxes[k].cls !in p.names
              && Detect(req, env) == Uncaught(KeyError(p.boxes[k].cls))
              && forall j :: 0 <= j < k ==> p.boxes[j].cls in p.names
  {
  }

  /** The answer depends on the model only through its prediction at the
      fixed settings (640 pixels, confidence 0.25). */
  lemma DetectUsesDefaultSettings(req: Request, env1: DetectEnv, env2: DetectEnv)
    requires env1.decodeRgb == env2.decodeRgb && env1.encodeJpeg == env2.encodeJpeg
    requires forall img :: env1.predict(img, PredictDefaults) == env2.predict(img, PredictDefaults)
    ensures Detect(req, env1) == Detect(req, env2)
  {
  }
}

=== FILE: numtext.dfy ===
/** Decimal text: natural numbers as digit strings, and the fixed-point
    text Python's `format(v, ".2f")` produces, with a parser as its inverse. */
module NumText {
  import opened Wrappers
  import opened Decimals

  predicate IsDigit(c: char) {
    '0' <= c <= '9'
  }

  predicate AllDigits(s: string) {
    forall i :: 0 <= i < |s| ==> IsDigit(s[i])
  }

  function DigitChar(d: nat): (c: char)
    requires d < 10
    ensures IsDigit(c) && DigitValue(c) == d
  {
    ('0' as int + d) as char
  }

  function DigitValue(c: char): nat
    requires IsDigit(c)
  {
    c as int - '0' as int
  }

  /** The number a string of decimal digits denotes, most significant first. */
  function ParseNat(s: string): nat
    requires AllDigits(s)
  {
    if |s| == 0 then 0 else 10 * ParseNat(s[..|s| - 1]) + DigitValue(s[|s| - 1])
  }

  /** Python's `str(n)` for a natural number: the shortest digit string that
      denotes `n`. */
  function NatToString(n: nat): (s: string)
    ensures |s| >= 1 && AllDigits(s)
    ensures ParseNat(s) == n
    ensures s[0] == '0' ==> |s| == 1
    decreases n
  {
    if n < 10 then [DigitChar(n)]
    else
      var prefix := NatToString(n / 10);
      var s := prefix + [DigitChar(n % 10)];
      assert s[..|s| - 1] == prefix;
      s
  }

  /** A value written with exactly two decimals: its sign and its magnitude
      counted in hundredths. */
  datatype TwoPlaces = TwoPlaces(negative: bool, hundredths: nat)

  /** The magnitude of `d` rounded (half to even) to hundredths, as `.2f`
      formatting rounds it. */
  function Hundredths(d: Decimal): (m: nat)
    ensures -0.5 <= Abs(d.units) as real * 100.0 / Pow10(d.places) as real - m as real <= 0.5
  {
    RoundHalfEven(Abs(d.units) as real * 100.0 / Pow10(d.places) as real)
  }

  /** `format(d, ".2f")`: an optional minus sign (present for every negative
      value, even one that rounds to zero), the integer part, a point and
      two digits. The text loses nothing but the rounding: it reads back as
      the sign of `d` and `d` rounded to hundredths. */
  function FormatTwoPlaces(d: Decimal): (s: string)
    ensures ParseTwoPlaces(s) == Some(TwoPlaces(d.units < 0, Hundredths(d)))
  {
    TwoPlacesTextRoundTrip(TwoPlaces(d.units < 0, Hundredths(d)));
    TwoPlacesText(TwoPlaces(d.units < 0, Hundredths(d)))
  }

  function TwoPlacesText(v: TwoPlaces): string {
    (if v.negative then "-" else "")
      + NatToString(v.hundredths / 100) + "."
      + [DigitChar(v.hundredths % 100 / 10), DigitChar(v.hundredths % 10)]
  }

  /** Reads text of the shape FormatTwoPlaces writes; None for anything else. */
  function ParseTwoPlaces(s: string): Option<TwoPlaces> {
    if |s| < 4 then None
    else
      var negative := s[0] == '-';
      var whole := if negative then s[1..|s| - 3] else s[..|s| - 3];
      if |whole| == 0 || !AllDigits(whole) || s[|s| - 3] != '.'
         || !IsDigit(s[|s| - 2]) || !IsDigit(s[|s| - 1])
      then None
      else Some(TwoPlaces(negative, 100 * ParseNat(whole) + 10 * DigitValue(s[|s| - 2]) + DigitValue(s[|s| - 1])))
  }

  /** Where the parts of two-decimal text sit: the minus sign first exactly
      for a negative value, then the integer part, the point and two digits. */
  lemma TwoPlacesTextLayout(v: TwoPlaces)
    ensures var s, m := TwoPlacesText(v), v.hundredths;
      && |s| >= 4
      && s[|s| - 3] == '.' && s[|s| - 2] == DigitChar(m % 100 / 10) && s[|s| - 1] == DigitChar(m % 10)
      && (s[0] == '-' <==> v.negative)
      && (if v.negative then s[1..|s| - 3] else s[..|s| - 3]) == NatToString(m / 100)
  {
    var m := v.hundredths;
    var sign := if v.negative then "-" else "";
    var whole := NatToString(m / 100);
    var tail := [DigitChar(m % 100 / 10), DigitChar(m % 10)];
    var s := sign + whole + "." + tail;
    assert s == TwoPlacesText(v);
    assert |s| == |sign| + |whole| + 3;
    if v.negative {
      assert s[0] == '-';
      assert forall k :: 0 <= k < |whole| ==> s[1..|s| - 3][k] == whole[k];
    } else {
      assert s[0] == whole[0] && IsDigit(s[0]);
      assert forall k :: 0 <= k < |whole| ==> s[..|s| - 3][k] == whole[k];
    }
  }

  /** Two-decimal text reads back as the value it was written from. */
  lemma TwoPlacesTextRoundTrip(v: TwoPlaces)
    ensures ParseTwoPlaces(TwoPlacesText(v)) == Some(v)
  {
    TwoPlacesTextLayout(v);
    var s, m := TwoPlacesText(v), v.hundredths;
    var whole := if v.negative then s[1..|s| - 3] else s[..|s| - 3];
    assert ParseNat(whole) == m / 100;
    assert DigitValue(s[|s| - 2]) == m % 100 / 10 && DigitValue(s[|s| - 1]) == m % 10;
    HundredthsDigits(m);
  }

  /** A count of hundredths is its whole part and its two decimal digits. */
  lemma HundredthsDigits(m: nat)
    ensures 100 * (m / 100) + 10 * (m % 100 / 10) + m % 10 == m
  {
    var a, r := m / 100, m % 100;
    var b, c := r / 10, r % 10;
    assert m == 100 * a + r;
    assert r == 10 * b + c && 0 <= c < 10;
    LastDigit(10 * a + b, c);
    assert m == 10 * (10 * a + b) + c;
  }

  lemma LastDigit(q: int, c: int)
    requires 0 <= c < 10
    ensures (10 * q + c) % 10 == c
  {
  }
}

=== FILE: preprocess.dfy ===
/** `preprocess_image` of the upload service (UI/preprocess.py) at the level
    of image shape: an optional resize, an optional grayscale conversion and
    an optional intensity round trip, always in that order, then the write
    of the result to the output path, after creating its directory. Creating
    the empty directory of a bare file name fails, and so does the write of
    an empty image, to a path whose extension has no writer, or of an image
    with other than 1, 3 or 4 channels. Reading and writing files is outside
    the model: the caller supplies what `cv2.imread` returned, and the result
    says which image would be written where. */
module Preprocess {
  import opened Wrappers
  import opened Imaging
  import opened Http

  /** What OpenCV does that the model leaves open: `area(img, w, h, i)` is
      sample `i` of the area-averaging resize of `img` to `w` x `h`,
      `luma(img, i)` is pixel `i` of its BGR-to-gray conversion, and
      `hasWriter(path)` says whether `cv2.imwrite` finds an image writer for
      the extension of `path` (it raises when it finds none). */
  datatype Kernels = Kernels(
    area: (Image, int, int, int) -> int,
    luma: (Image, int) -> int,
    hasWriter: string -> bool)

  datatype Step = ResizeStep | GrayscaleStep | NormalizeStep

  function Rank(s: Step): nat {
    match s
    case ResizeStep => 0
    case GrayscaleStep => 1
    case NormalizeStep => 2
  }

  /** The steps appear in pipeline order, each at most once. */
  predicate InPipelineOrder(steps: seq<Step>) {
    forall i, j :: 0 <= i < j < |steps| ==> Rank(steps[i]) < Rank(steps[j])
  }

  /** What the function leaves behind: the path it returns, the image it
      writes there, and the steps that were applied. */
  datatype Preprocessed = Preprocessed(path: string, image: Image, steps: seq<Step>)

  /** The guard `resize and len(resize) == 2`: a present, two-element
      `resize` argument is read as (width, height); anything else means no
      resize. */
  function ResizeTarget(resize: Option<seq<int>>): (t: Option<(int, int)>)
    ensures t.Some? <==> resize.Some? && |resize.value| == 2
    ensures t.Some? ==> t.value.0 == resize.value[0] && t.value.1 == resize.value[1]
  {
    if resize.Some? && |resize.value| == 2 then Some((resize.value[0], resize.value[1])) else None
  }

  /** `cv2.resize(img, (width, height), interpolation=cv2.INTER_AREA)`.
      OpenCV rejects an empty source and a target side that is not positive. */
  function Resize(img: Image, width: int, height: int, k: Kernels): (r: Result<Image, Exception>)
    ensures r.Ok? <==> img.width > 0 && img.height > 0 && width > 0 && height > 0
    ensures r.Ok? ==> r.value.width == width && r.value.height == height
    ensures r.Ok? ==> r.value.channels == img.channels && Valid(r.value)
  {
    if img.width == 0 || img.height == 0 || width <= 0 || height <= 0 then
      Err(OpenCvError(ResizeRefused))
    else
      var samples := seq(width * height * img.channels, i => Saturate(k.area(img, width, height, i)));
      assert forall i :: 0 <= i < |samples| ==> IsSample(samples[i]) by {
        forall i | 0 <= i < |samples| ensures IsSample(samples[i]) {
          assert samples[i] == Saturate(k.area(img, width, height, i));
        }
      }
      Ok(Image(width, height, img.channels, samples))
  }

  /** `cv2.cvtColor(img, cv2.COLOR_BGR2GRAY)`: one channel out; OpenCV
      rejects an empty source and accepts only 3- or 4-channel input. */
  function Grayscale(img: Image, k: Kernels): (r: Result<Image, Exception>)
    ensures r.Ok? <==> img.width > 0 && img.height > 0 && (img.channels == 3 || img.channels == 4)
    ensures r.Ok? ==> r.value.width == img.width && r.value.height == img.height
    ensures r.Ok? ==> r.value.channels == 1 && Valid(r.value)
  {
    if img.width == 0 || img.height == 0 then
      Err(OpenCvError(EmptyConversionSource))
    else if img.channels != 3 && img.channels != 4 then
      Err(OpenCvError(ConversionChannels))
    else
      var samples := seq(img.width * img.height, i => Saturate(k.luma(img, i)));
      assert forall i :: 0 <= i < |samples| ==> IsSample(samples[i]) by {
        forall i | 0 <= i < |samples| ensures IsSample(samples[i]) {
          assert samples[i] == Saturate(k.luma(img, i));
        }
      }
      assert |samples| == img.width * img.height * 1;
      Ok(Image(img.width, img.height, 1, samples))
  }

  /** `.clip(0, 255).astype('uint8')` of one float: clamp, then cut toward
      zero. */
  function Requantize(x: real): (b: int)
    ensures IsSample(b)
    ensures 0.0 <= x <= 255.0 ==> b as real <= x < b as real + 1.0
    ensures x < 0.0 ==> b == 0
    ensures x > 255.0 ==> b == 255
  {
    if x < 0.0 then 0 else if x > 255.0 then 255 else x.Floor
  }

  /** The intensity round trip: each sample scaled to [0, 1], scaled back,
      clipped to [0, 255] and stored as 8 bits. On a valid image it changes
      nothing: dividing by 255 and multiplying back is exact. */
  function Normalize(img: Image): (r: Image)
    ensures r.width == img.width && r.height == img.height && r.channels == img.channels
    ensures |r.samples| == |img.samples|
    ensures forall i :: 0 <= i < |r.samples| ==> IsSample(r.samples[i])
    ensures Valid(img) ==> r == img
  {
    var samples := seq(|img.samples|, i requires 0 <= i < |img.samples| =>
                         Requantize(img.samples[i] as real / 255.0 * 255.0));
    assert forall i :: 0 <= i < |samples| ==> IsSample(samples[i]) by {
      forall i | 0 <= i < |samples| ensures IsSample(samples[i]) {
        assert samples[i] == Requantize(img.samples[i] as real / 255.0 * 255.0);
      }
    }
    Image(img.width, img.height, img.channels, samples)
  }

  /** The image between two steps, with the steps applied so far. */
  datatype Stage = Stage(image: Image, steps: seq<Step>)

  function ResizeStage(st: Stage, resize: Option<seq<int>>, k: Kernels): (r: Result<Stage, Exception>)
    ensures ResizeTarget(resize).None? ==> r == Ok(st)
    ensures ResizeTarget(resize).Some? ==>
              (r.Ok? <==> st.image.width > 0 && st.image.height > 0
                          && ResizeTarget(resize).value.0 > 0 && ResizeTarget(resize).value.1 > 0)
    ensures r.Err? ==> r.error.OpenCvError?
    ensures ResizeTarget(resize).Some? && r.Ok? ==>
              && r.value.image.width == ResizeTarget(resize).value.0
              && r.value.image.height == ResizeTarget(resize).value.1
              && r.value.image.channels == st.image.channels
              && Valid(r.value.image)
              && r.value.steps == st.steps + [ResizeStep]
  {
    match ResizeTarget(resize)
    case None => Ok(st)
    case Some((w, h)) =>
      var img :- Resize(st.image, w, h, k);
      Ok(Stage(img, st.steps + [ResizeStep]))
  }

  function GrayscaleStage(st: Stage, grayscale: bool, k: Kernels): (r: Result<Stage, Exception>)
    ensures !grayscale ==> r == Ok(st)
    ensures grayscale ==> (r.Ok? <==> st.image.width > 0 && st.image.height > 0
                                      && (st.image.channels == 3 || st.image.channels == 4))
    ensures r.Err? ==> r.error.OpenCvError?
    ensures grayscale && r.Ok? ==>
              && r.value.image.width == st.image.width
              && r.value.image.height == st.image.height
              && r.value.image.channels == 1
              && Valid(r.value.image)
              && r.value.steps == st.steps + [GrayscaleStep]
  {
    if !grayscale then Ok(st)
    else
      var img :- Grayscale(st.image, k);
      Ok(Stage(img, st.steps + [GrayscaleStep]))
  }

  function NormalizeStage(st: Stage, normalize: bool): (r: Stage)
    ensures !normalize ==> r == st
    ensures normalize ==>
              && r.image.width == st.image.width
              && r.image.height == st.image.height
              && r.image.channels == st.image.channels
              && |r.image.samples| == |st.image.samples|
              && (forall i :: 0 <= i < |r.image.samples| ==> IsSample(r.image.samples[i]))
              && r.steps == st.steps + [NormalizeStep]
    ensures Valid(st.image) ==> r.image == st.image
  {
    if normalize then Stage(Normalize(st.image), st.steps + [NormalizeStep]) else st
  }

  /** The message of the exception raised for an unreadable input. */
  function ReadFailure(inputPath: string): Exception {
    FileNotFoundError("Could not read input image: " + inputPath)
  }

  /** `os.path.dirname(path)` is empty exactly when the path has no `/`;
      `os.makedirs('')` then raises. */
  predicate HasDirectoryPart(path: string) {
    '/' in path
  }

  /** The exception `os.makedirs('', exist_ok=True)` raises. */
  function MakedirsFailure(): Exception {
    FileNotFoundError("[Errno 2] No such file or directory: ''")
  }

  /** The `cv2.error` that `imwrite` raises for an output path whose
      extension has no writer. */
  function WriteFailure(): Exception {
    OpenCvError(NoWriter)
  }

  /** The `cv2.error` that `imwrite` raises for an empty image, before it
      looks for a writer. */
  function EmptyWriteFailure(): Exception {
    OpenCvError(EmptyWrite)
  }

  /** `imwrite` stores only images of 1, 3 or 4 channels. */
  predicate WritableChannels(channels: nat) {
    channels == 1 || channels == 3 || channels == 4
  }

  /** The `cv2.error` that `imwrite` raises, once it has found a writer,
      for an image of any other channel count. */
  function ChannelsWriteFailure(): Exception {
    OpenCvError(WriteChannels)
  }

  /** Whether OpenCV refuses one of the requested image steps: a resize of
      an empty image or to a non-positive side, or a gray conversion of an
      empty image or of one without 3 or 4 channels. */
  predicate StepsFail(img: Image, resize: Option<seq<int>>, grayscale: bool) {
    || (ResizeTarget(resize).Some? &&
        (img.width == 0 || img.height == 0 ||
         ResizeTarget(resize).value.0 <= 0 || ResizeTarget(resize).value.1 <= 0))
    || (grayscale && (img.width == 0 || img.height == 0 || (img.channels != 3 && img.channels != 4)))
  }

  /** Whether `imwrite` refuses the image the steps produced: an empty
      image (only possible when no resize ran), an output path without a
      writer, or a channel count other than 1, 3 or 4. */
  predicate WriteFails(img: Image, resize: Option<seq<int>>, grayscale: bool, outputPath: string, k: Kernels) {
    || (ResizeTarget(resize).None? && (img.width == 0 || img.height == 0))
    || !k.hasWriter(outputPath)
    || !WritableChannels(if grayscale then 1 else img.channels)
  }

  /** What the image steps leave when they succeed on `img`: the size a
      (width, height) pair asks for, or else the size read; one channel
      after grayscale, or else the channels read; 8-bit samples after
      normalize, and a valid image from a valid one; normalize alone leaves
      a valid image exactly as it was read; and the steps in the fixed
      order resize, grayscale, normalize, each exactly when requested. */
  predicate StepsAsRequested(img: Image, resize: Option<seq<int>>, grayscale: bool, normalize: bool,
                             st: Stage) {
    && (ResizeTarget(resize).Some? ==>
          st.image.width == resize.value[0] && st.image.height == resize.value[1])
    && (ResizeTarget(resize).None? ==>
          st.image.width == img.width && st.image.height == img.height)
    && st.image.channels == (if grayscale then 1 else img.channels)
    && (normalize ==> forall i :: 0 <= i < |st.image.samples| ==> IsSample(st.image.samples[i]))
    && (Valid(img) ==> Valid(st.image))
    && (Valid(img) && ResizeTarget(resize).None? && !grayscale ==> st.image == img)
    && InPipelineOrder(st.steps)
    && (ResizeStep in st.steps <==> ResizeTarget(resize).Some?)
    && (GrayscaleStep in st.steps <==> grayscale)
    && (NormalizeStep in st.steps <==> normalize)
  }

  /** The three image steps on what `imread` returned, in their fixed
      order, each only when requested. */
  function ImageSteps(img: Image, resize: Option<seq<int>>, grayscale: bool, normalize: bool,
                      k: Kernels): (r: Result<Stage, Exception>)
    ensures r.Err? <==> StepsFail(img, resize, grayscale)
    ensures r.Err? ==> r.error.OpenCvError?
    ensures r.Ok? ==> StepsAsRequested(img, resize, grayscale, normalize, r.value)
  {
    var resized :- ResizeStage(Stage(img, []), resize, k);
    var grayed :- GrayscaleStage(resized, grayscale, k);
    Ok(NormalizeStage(grayed, normalize))
  }

  /** `os.makedirs(os.path.dirname(output_path), exist_ok=True)` and then
      `cv2.imwrite(output_path, img)`: the directory is made first, then the
      write checks the image is not empty, finds a writer for the
      extension, and checks the channel count. */
  function Store(st: Stage, outputPath: string, k: Kernels): (r: Result<Preprocessed, Exception>)
    ensures r.Ok? <==> && HasDirectoryPart(outputPath)
                       && st.image.width > 0 && st.image.height > 0
                       && k.hasWriter(outputPath) && WritableChannels(st.image.channels)
    ensures !HasDirectoryPart(outputPath) ==> r == Err(MakedirsFailure())
    ensures HasDirectoryPart(outputPath) && (st.image.width == 0 || st.image.height == 0) ==>
              r == Err(EmptyWriteFailure())
    ensures HasDirectoryPart(outputPath) && st.image.width > 0 && st.image.height > 0
              && !k.hasWriter(outputPath) ==>
              r == Err(WriteFailure())
    ensures HasDirectoryPart(outputPath) && st.image.width > 0 && st.image.height > 0
              && k.hasWriter(outputPath) && !WritableChannels(st.image.channels) ==>
              r == Err(ChannelsWriteFailure())
    // what is written is the image the steps produced, at the path given
    ensures r.Ok? ==> r.value.path == outputPath && r.value.image == st.image && r.value.steps == st.steps
  {
    if !HasDirectoryPart(outputPath) then Err(MakedirsFailure())
    else if st.image.width == 0 || st.image.height == 0 then Err(EmptyWriteFailure())
    else if !k.hasWriter(outputPath) then Err(WriteFailure())
    else if !WritableChannels(st.image.channels) then Err(ChannelsWriteFailure())
    else Ok(Preprocessed(outputPath, st.image, st.steps))
  }

  /** What a successful call delivers for an image `img` that `imread`
      returned: the output path unchanged, and the image and steps as
      requested. */
  predicate DeliversAsRequested(img: Image, outputPath: string, resize: Option<seq<int>>,
                                grayscale: bool, normalize: bool, out: Preprocessed) {
    && out.path == outputPath
    && StepsAsRequested(img, resize, grayscale, normalize, Stage(out.image, out.steps))
  }

  /** What `preprocess_image` does with an image `imread` returned: the
      image steps, then the directory and the write. */
  function ProcessRead(img: Image, outputPath: string,
                       resize: Option<seq<int>>, grayscale: bool, normalize: bool,
                       k: Kernels): (r: Result<Preprocessed, Exception>)
    // the failures are OpenCV's refusals, of the image steps or of the
    // write, and makedirs refusing the empty directory of a bare file name
    ensures r.Err? ==> r.error.OpenCvError? || r.error == MakedirsFailure()
    ensures r.Err? <==>
              || StepsFail(img, resize, grayscale)
              || !HasDirectoryPart(outputPath)
              || WriteFails(img, resize, grayscale, outputPath, k)
    // once the image steps succeed, makedirs runs, then the write: its
    // empty-image check, its writer lookup, then its channel check
    ensures !StepsFail(img, resize, grayscale) && !HasDirectoryPart(outputPath) ==>
              r == Err(MakedirsFailure())
    ensures !StepsFail(img, resize, grayscale) && HasDirectoryPart(outputPath)
              && ResizeTarget(resize).None? && (img.width == 0 || img.height == 0) ==>
              r == Err(EmptyWriteFailure())
    ensures !StepsFail(img, resize, grayscale) && HasDirectoryPart(outputPath)
              && (ResizeTarget(resize).Some? || (img.width > 0 && img.height > 0))
              && !k.hasWriter(outputPath) ==>
              r == Err(WriteFailure())
    ensures !StepsFail(img, resize, grayscale) && HasDirectoryPart(outputPath)
              && (ResizeTarget(resize).Some? || (img.width > 0 && img.height > 0))
              && k.hasWriter(outputPath) && !WritableChannels(if grayscale then 1 else img.channels) ==>
              r == Err(ChannelsWriteFailure())
    ensures r.Ok? ==> DeliversAsRequested(img, outputPath, resize, grayscale, normalize, r.value)
  {
    var done :- ImageSteps(img, resize, grayscale, normalize, k);
    Store(done, outputPath, k)
  }

  /** `preprocess_image(input_path, output_path, resize, grayscale, normalize)`,
      given `read`, the result of `cv2.imread(input_path)` (None when the
      file is missing or not an image). */
  function PreprocessImage(read: Option<Image>, inputPath: string, outputPath: string,
                           resize: Option<seq<int>>, grayscale: bool, normalize: bool,
                           k: Kernels): (r: Result<Preprocessed, Exception>)
    // an unreadable input raises before anything is computed or written
    ensures read.None? ==> r == Err(ReadFailure(inputPath))
    // the only other failures are OpenCV's refusals, of the image steps or of
    // the write, and makedirs refusing the empty directory of a bare file name
    ensures read.Some? && r.Err? ==> r.error.OpenCvError? || r.error == MakedirsFailure()
    ensures read.Some? ==> (r.Err? <==>
              || StepsFail(read.value, resize, grayscale)
              || !HasDirectoryPart(outputPath)
              || WriteFails(read.value, resize, grayscale, outputPath, k))
    // once the image steps succeed, makedirs runs, then the write: its
    // empty-image check, its writer lookup, then its channel check
    ensures read.Some? && !StepsFail(read.value, resize, grayscale) && !HasDirectoryPart(outputPath) ==>
              r == Err(MakedirsFailure())
    ensures read.Some? && !StepsFail(read.value, resize, grayscale) && HasDirectoryPart(outputPath)
              && ResizeTarget(resize).None? && (read.value.width == 0 || read.value.height == 0) ==>
              r == Err(EmptyWriteFailure())
    ensures read.Some? && !StepsFail(read.value, resize, grayscale) && HasDirectoryPart(outputPath)
              && (ResizeTarget(resize).Some? || (read.value.width > 0 && read.value.height > 0))
              && !k.hasWriter(outputPath) ==>
              r == Err(WriteFailure())
    ensures read.Some? && !StepsFail(read.value, resize, grayscale) && HasDirectoryPart(outputPath)
              && (ResizeTarget(resize).Some? || (read.value.width > 0 && read.value.height > 0))
              && k.hasWriter(outputPath) && !WritableChannels(if grayscale then 1 else read.value.channels) ==>
              r == Err(ChannelsWriteFailure())
    ensures r.Ok? ==> DeliversAsRequested(read.value, outputPath, resize, grayscale, normalize, r.value)
  {
    match read
    case None => Err(ReadFailure(inputPath))
    case Some(img) => ProcessRead(img, outputPath, resize, grayscale, normalize, k)
  }
}

=== FILE: wrappers.dfy ===
/** Option and Result, used wherever the services either produce a value or
    fail (a missing key, an unreadable file, an exception that escapes).
    Result is failure-compatible, so `:-` propagates the first error. */
module Wrappers {

  datatype Option<+T> = None | Some(value: T)

  datatype Result<+T, +E> = Ok(value: T) | Err(error: E) {

    predicate IsFailure() {
      Err?
    }

    function PropagateFailure<U>(): Result<U, E>
      requires Err?
    {
      Err(error)
    }

    function Extract(): T
      requires Ok?
    {
      value
    }
  }
}
